=== FILE: README.md ===
# Flight-booking intent handler, modelled in Dafny

The repository's chatbot handler `flightBooking` takes the conversation's
source, destination and travel-date entities. It resolves both places to
IATA airport codes, queries a flight-search service, and answers with cards
for the top itineraries or with a text prompt. Network calls, XML parsing
and date parsing are plumbing. This project models the deterministic logic
between them as pure functions over immutable datatypes:

- `JsText`: the JavaScript primitives the handler relies on. These are
  `indexOf` for a one-character pattern (-1 when absent, start position
  clamped) and `substring` (positions clamped into `[0, length]`, swapped
  when start > end). Also the decimal rendering `+` applies to a number,
  with its inverse parser.
- `AirportCode`: the code extraction from the resolver's `"City;CODE&..."`
  text field.
- `TimeFormat`: `formatAMPM`, with an inverse parser.
- `AirlineDirectory`: `getAirlineDetails`, a scan in which every match
  overwrites the previous one.
- `FlightSearch`: the search request's unpadded `year-month-day` date, and
  the shaping of the search answer (error, or the first five itineraries).
- `ResponseFormat`: cards (title, subtitle, image, one fixed button) and the
  text-or-list reply.
- `Booking`: the handler itself. The resolver, the search service and the
  airline dataset are parameters. A `Turn` records four things: the keywords
  sent to the resolver, the search request issued, whether the memory was
  reset, and how the handler's promise settled (a reply, or an uncaught
  rejection).

The model follows the code as written, including three behaviours a reader
may not expect:

- `getAirlineDetails` keeps the **last** matching record, not the first,
  because every match overwrites the previous one
  (src/flightBooking.js:131-136).
- It returns the empty object `{}` when nothing matches
  (src/flightBooking.js:130, 138). That object passes the
  `!= undefined && != null` test at src/flightBooking.js:193, so the
  fallback to the raw carrier code never runs. The card title becomes
  `"undefined( Flight No: … )"` and the image URL stays undefined
  (`UnknownCarrierCard`).
- The search origin is the destination's code and the search destination is
  the source's code (src/flightBooking.js:161-162). This swap is kept as
  written (`FlightBooking`).

The memory is reset as soon as the search answers (src/flightBooking.js:169),
before the answer is read. So an answer whose error entry has no `Type`, or
one of whose kept itineraries lacks one of the objects the card loop reads
through (pricing information, `PriceRequestInformation`, the first option,
its first segment, `OperatingAirline`; src/flightBooking.js:182-183),
rejects the turn after the reset (`UnreadableAnswerRejectedAfterReset`).

## Model

| member | source | states |
|---|---|---|
| JsText.IndexOf | src/flightBooking.js:35 | `indexOf` returns the first position at or after the clamped start that holds the character, and -1 exactly when there is none |
| JsText.Substring | src/flightBooking.js:35 | `substring` agrees with slicing for in-range positions in either order; a negative position acts as 0 and one past the end as the length, so two negative positions give the empty string |
| JsText.SubstringSymmetric | src/flightBooking.js:35 | `substring` gives the same text whichever order its two positions come in |
| JsText.IndexOfFinds | src/flightBooking.js:35 | every first occurrence at or after a start position is the one `indexOf` reports |
| JsText.NatToStringRoundTrip | src/flightBooking.js:148 | the decimal text of a number reads back as that number |
| JsText.NatToStringInjective | src/flightBooking.js:148 | distinct numbers render to distinct decimal texts |
| JsText.NatToStringShortest | src/flightBooking.js:148 | below 100, any digit string that reads as a number is at least as long as its decimal text, and equal to it when as long |
| JsText.NatToString | src/flightBooking.js:148 | a number renders as a non-empty run of digits with no leading zero; one digit below 10, two below 100 |
| AirportCode.ExtractCode | src/flightBooking.js:35 | the code is never longer than the text; by where `indexOf` finds the first `;` (i) and the next `&` (j): both found gives the text strictly between them, with no `&`; only `;` gives the prefix through the `;`; only `&` gives the prefix before it; neither gives the empty string |
| AirportCode.CodeBetweenDelimiters | src/flightBooking.js:35 | with `;` first at i and `&` first after it at j, the code is exactly the text between them: length j-i-1, no `&` |
| AirportCode.CodeWithoutAmpersand | src/flightBooking.js:35 | with a `;` but no `&` after it, the clamp and swap give the prefix up to and including the `;` |
| AirportCode.CodeWithoutSemicolon | src/flightBooking.js:35 | with no `;`, the code is the prefix before the first `&` |
| AirportCode.CodeWithoutDelimiters | src/flightBooking.js:35 | with neither delimiter, the code is empty and extraction does not fail |
| AirportCode.ExtractCodeRoundTrip | src/flightBooking.js:34-35 | extraction inverts the resolver's `city;code&rest` layout when the city has no `;` and the code no `&` |
| AirportCode.DubaiExample | src/flightBooking.js:35 | `"Dubai;DXB&…"` yields `"DXB"` |
| TimeFormat.Suffix | src/flightBooking.js:144 | the suffix is `pm` exactly when the hour is 12 or later, `am` otherwise |
| TimeFormat.DisplayHour | src/flightBooking.js:145-146 | the shown hour is in 1..12 and congruent to the hour modulo 12; hours 0 and 12 both show as 12 |
| TimeFormat.MinuteField | src/flightBooking.js:147 | the minute field is always two characters and reads back as the minutes |
| TimeFormat.FormatAMPM | src/flightBooking.js:141-150 | the text is 7 or 8 characters, 7 exactly when the display hour is below 10, so the hour is never padded; from the end it holds the suffix, a space, two-digit minutes, a colon, and before that the 12-hour display hour |
| TimeFormat.FormatAMPMShortest | src/flightBooking.js:141-150 | any text that parses as a clock is at least as long as that clock's formatted text, and is that text when as long; only a padded hour parses the same and is longer |
| TimeFormat.FormatAMPMRoundTrip | src/flightBooking.js:141-150 | parsing a formatted time gives back the 24-hour clock it came from |
| TimeFormat.FormatAMPMInjective | src/flightBooking.js:141-150 | distinct times never share a rendering; 0:xx and 12:xx differ by suffix |
| TimeFormat.FormatAMPMAfterMidnight | src/flightBooking.js:141-150 | 0:05 renders as `12:05 am` |
| TimeFormat.FormatAMPMAfternoon | src/flightBooking.js:141-150 | 13:00 renders as `1:00 pm` |
| TimeFormat.FormatAMPMNoon | src/flightBooking.js:141-150 | 12:30 renders as `12:30 pm` |
| AirlineDirectory.LastMatchIndex | src/flightBooking.js:131-136 | reference definition: the greatest index whose record has the code, or -1 when none does |
| AirlineDirectory.Scan | src/flightBooking.js:130-137 | the overwrite-on-match loop ends with the record at the last matching index, or its starting value if none matches |
| AirlineDirectory.GetAirlineDetails | src/flightBooking.js:129-139 | a record is found iff some entry has the code; it is the last such entry; otherwise the empty object |
| AirlineDirectory.LaterEntryWins | src/flightBooking.js:133-135 | a record appended with the code overrides every earlier match |
| AirlineDirectory.UnrelatedEntryIgnored | src/flightBooking.js:133-135 | appending a record for another code leaves the lookup unchanged |
| FlightSearch.ShapeResult | src/flightBooking.js:104-126 | with an error in the first item: its `Type` (undefined when it has none) and no flights; without one: an empty error and a prefix of the itineraries of length min(5, n) |
| FlightSearch.ShapeResultIdempotent | src/flightBooking.js:115-118 | shaping an already-shaped flight list changes nothing |
| FlightSearch.ShapeResultIgnoresTail | src/flightBooking.js:115 | itineraries after the fifth never influence the result |
| FlightSearch.DepartureDate | src/flightBooking.js:163 | the date string is as long as the year's digits, two separators, and one or two characters for month and day by whether each is below 10, so no field is zero-padded |
| FlightSearch.DepartureDateRoundTrip | src/flightBooking.js:163 | the unpadded date string reads back as year, one-based month 1..12, and day |
| FlightSearch.DepartureDateInjective | src/flightBooking.js:163 | distinct dates give distinct request dates |
| FlightSearch.DepartureDateExample | src/flightBooking.js:163 | 2018, month index 2, day 5 gives `2018-3-5` |
| ResponseFormat.IsPresent | src/flightBooking.js:193 | the presence test holds for every lookup result, the empty object included |
| ResponseFormat.NameProperty | src/flightBooking.js:194 | the name is defined exactly when a record was found, and is that record's name |
| ResponseFormat.LogoProperty | src/flightBooking.js:195 | the logo link is defined exactly when a record was found, and is that record's link |
| ResponseFormat.Render | src/flightBooking.js:202 | concatenation shows a defined value as itself and an undefined one as `undefined` |
| ResponseFormat.Title | src/flightBooking.js:202 | the title is the carrier name, then `( Flight No: `, then the flight number, then ` )` |
| ResponseFormat.Subtitle | src/flightBooking.js:184-204 | the subtitle is exactly as long as the two unpadded formatted times, the duration and 13 separator characters, and parsing it (separators ` - ` and ` ( ` with a space on each side, closing `mins ) `) gives all three fields back |
| ResponseFormat.SubtitleUnique | src/flightBooking.js:204 | a text of the subtitle's length that parses as its departure, arrival and duration is the subtitle itself |
| ResponseFormat.ClockTextHasNoSeparators | src/flightBooking.js:204 | a formatted time contains neither `-` nor `(`, so the subtitle's separators are unambiguous |
| ResponseFormat.BuildCard | src/flightBooking.js:182-211 | every card has exactly one `Book Flight`/`web_url` button with the fixed URL, and the itinerary's subtitle |
| ResponseFormat.KnownCarrierCard | src/flightBooking.js:189-195 | a known carrier's card shows the name and logo of the last dataset record with that code |
| ResponseFormat.UnknownCarrierCard | src/flightBooking.js:193-203 | an unknown carrier's card title starts with `undefined` and has no image; the raw-code fallback never runs |
| ResponseFormat.BuildCards | src/flightBooking.js:176-212 | one card per itinerary, in the same order |
| ResponseFormat.CompleteFlights | src/flightBooking.js:180-187 | the kept entries are usable exactly when every one of them is complete, and then they come back in order |
| ResponseFormat.Reply | src/flightBooking.js:170-219 | an undefined error throws; a non-empty error gives a text reply with that error; an empty error gives a list with one card per flight, in order, exactly when every flight is complete |
| Booking.FlightBooking | src/flightBooking.js:151-239 | a missing location gives the location prompt with no lookup; both present gives two lookups, source first; a request swaps the resolved codes and uses the first date entity; the memory is reset iff the search answered |
| Booking.Answered | src/flightBooking.js:166-170 | once the request is out, the memory is reset exactly when the search answers |
| Booking.ReplyFailsIffUnreadable | src/flightBooking.js:170-187 | building the reply throws exactly when the error entry has no `Type` or a kept itinerary is incomplete |
| Booking.TurnAfterSearch | src/flightBooking.js:157-168 | once both lookups and a date are in hand, the turn depends on the search only through its answer to the request |
| Booking.SearchSeenOnlyAtRequest | src/flightBooking.js:166-168 | a turn with any search service equals the turn with a service that always gives that answer, so the reply lemmas below hold for every service |
| Booking.AsksForDateWithoutDatetime | src/flightBooking.js:157-158 | with both locations resolved and no date entity, the reply is the date prompt, with no search and no reset |
| Booking.SearchIssuedIff | src/flightBooking.js:152-167 | a search goes out iff both locations are present and resolve and a date entity exists |
| Booking.RepliesUnlessExternalFailure | src/flightBooking.js:152-187 | the turn goes unanswered iff a resolver lookup fails, the date list is empty, the search fails, or its answer is unreadable |
| Booking.UnreadableAnswerRejectedAfterReset | src/flightBooking.js:169-187 | an unreadable answer leaves the turn unanswered after the memory has been reset |
| Booking.SearchErrorRelayed | src/flightBooking.js:169-174 | when the search answers with a non-empty error, the memory is reset and the error is relayed verbatim as text |
| Booking.EmptyErrorGivesEmptyList | src/flightBooking.js:170 | an error type that is the empty string counts as success and gives a list with no cards |
| Booking.ReplyListsKeptFlights | src/flightBooking.js:175-219 | with no error and complete kept itineraries, the reply lists min(5, n) cards, the k-th built from the k-th itinerary |
| Booking.FlightsListed | src/flightBooking.js:175-219 | without an error and with complete kept itineraries, the memory is reset and the reply lists min(5, n) cards, the k-th built from the service's k-th itinerary |
| Booking.NoFlightsFoundExample | src/flightBooking.js:170-174 | a `NoFlightsFound` error gives the text reply `NoFlightsFound` |

## Left out

- HTTP calls to the resolver and search endpoints (src/flightBooking.js:28-33, 40-104). They are network I/O; their outcomes are the `resolve` and `search` parameters.
- XML parsing with `xmldom`/`xmlToJSON`, using the library's default options (src/flightBooking.js:10-14, 33-34). The options object at src/flightBooking.js:15-26 is shadowed by the local `options` at l.29 and is never used. Parsing is library code; the model starts from the extracted `_text` string. Any parse failure is a `None` from `resolve`.
- Any conversion the library applies to the text field. The field is taken to be a string.
- The contents of the `aviation-json` dataset (src/flightBooking.js:8-9). It is bundled data; the model takes it as a sequence of records in key order.
- JavaScript `Date` parsing and time zones (src/flightBooking.js:159, 184-185). The model takes calendar fields and clock times as integers in the ranges of `getFullYear`/`getMonth`/`getDate`/`getHours`/`getMinutes`. Years before 0 are not modelled. An invalid ISO text, which would render as `NaN`, is not modelled either.
- `Promise.all` concurrency. Both lookups are issued, and the turn is rejected if either fails. Which one is issued first does not matter.
- The constant parts of the search body (src/flightBooking.js:50-102): passenger counts, cabin, echo token, version and maximum responses. They do not depend on the input; only origin, destination and date are modelled.
- Itinerary fields other than the first segment's carrier, times and flight number, and the first option's total duration (src/flightBooking.js:183-187). A multi-leg card therefore pairs the first leg's times with the whole trip's duration. Flight number and duration are kept as the text they render to. A missing one renders as `undefined` without throwing.
- The `currency` and `price` values (src/flightBooking.js:182, 190). They are computed but never used in the reply, so the itinerary carries no currency.
- An `Error` array with no first entry, or an answer with no error in its first item and no `Items[1]` (src/flightBooking.js:107-108, 120): reading them throws inside the search step, so they count as a failed search (`None` from `search`). An answer with an error and no `Items[1]` is read normally; its error is relayed.
- `console.log` calls and the commented-out code after the export (src/flightBooking.js:242-279).
- Carrier codes and the dataset's `IATA` fields are taken to be strings. A missing `OperatingAirline.Code` reads as `undefined` without throwing (src/flightBooking.js:183). The loose `==` at src/flightBooking.js:133 then matches any record whose `IATA` is null or missing. That matching is not modelled.
- JsText.IndexOf: models only the one-character patterns the handler uses, not general substring search.
- JavaScript string positions count UTF-16 code units, while a Dafny `char` is one Unicode scalar value. The delimiters are ASCII, so the extracted text is the same; positions in text with characters outside the Basic Multilingual Plane are not modelled.

=== FILE: airline_directory.dfy ===
/** The carrier lookup `getAirlineDetails` over the bundled airline
    dataset, whose records are visited in key order. */
module AirlineDirectory {

  /** One entry of the airline dataset. */
  datatype AirlineRecord = AirlineRecord(iata: string, name: string, logoLink: string)

  /** What the lookup returns: a dataset record, or the empty object `{}`
      it starts from. Neither is `null` or `undefined`. */
  datatype Details = Empty | Found(record: AirlineRecord)

  /** Reference definition: the greatest index whose record carries
      `code`, or -1 when none does. */
  function LastMatchIndex(airlines: seq<AirlineRecord>, code: string): (k: int)
    ensures -1 <= k < |airlines|
    ensures 0 <= k ==> airlines[k].iata == code
    ensures forall j :: k < j < |airlines| ==> airlines[j].iata != code
  {
    if |airlines| == 0 then -1
    else if airlines[|airlines| - 1].iata == code then |airlines| - 1
    else LastMatchIndex(airlines[..|airlines| - 1], code)
  }

  /** The three facts above pin the index down. */
  lemma LastMatchUnique(airlines: seq<AirlineRecord>, code: string, k: int)
    requires -1 <= k < |airlines|
    requires 0 <= k ==> airlines[k].iata == code
    requires forall j :: k < j < |airlines| ==> airlines[j].iata != code
    ensures k == LastMatchIndex(airlines, code)
  {
  }

  /** The `forEach` loop: every matching record overwrites what was held
      so far, starting from `acc`. */
  function Scan(airlines: seq<AirlineRecord>, code: string, acc: Details): (d: Details)
    ensures var k := LastMatchIndex(airlines, code);
      d == if k < 0 then acc else Found(airlines[k])
    decreases |airlines|
  {
    if |airlines| == 0 then acc
    else
      var next := if airlines[0].iata == code then Found(airlines[0]) else acc;
      var d := Scan(airlines[1..], code, next);
      var k := LastMatchIndex(airlines[1..], code);
      var whole := if 0 <= k then k + 1 else if airlines[0].iata == code then 0 else -1;
      assert forall j :: 1 <= j < |airlines| ==> airlines[j] == airlines[1..][j - 1];
      LastMatchUnique(airlines, code, whole);
      d
  }

  /** `getAirlineDetails`: the last record in key order whose IATA code
      equals `code`, or the empty object when none does. */
  function GetAirlineDetails(airlines: seq<AirlineRecord>, code: string): (d: Details)
    ensures d.Found? <==> exists i :: 0 <= i < |airlines| && airlines[i].iata == code
    ensures d.Found? ==> d.record.iata == code
    ensures d.Found? ==> exists i :: 0 <= i < |airlines| && airlines[i] == d.record
    ensures d.Found? ==> d.record == airlines[LastMatchIndex(airlines, code)]
  {
    Scan(airlines, code, Empty)
  }

  /** Later entries win: appending a record with the code overrides every
      earlier match. */
  lemma LaterEntryWins(airlines: seq<AirlineRecord>, r: AirlineRecord)
    ensures GetAirlineDetails(airlines + [r], r.iata) == Found(r)
  {
    var all := airlines + [r];
    assert all[|all| - 1] == r;
  }

  /** Appending a record for another code leaves a lookup unchanged. */
  lemma UnrelatedEntryIgnored(airlines: seq<AirlineRecord>, r: AirlineRecord, code: string)
    requires r.iata != code
    ensures GetAirlineDetails(airlines + [r], code) == GetAirlineDetails(airlines, code)
  {
    var all := airlines + [r];
    assert all[..|all| - 1] == airlines;
  }
}

=== FILE: airport_code.dfy ===
/** Extraction of the IATA airport code from the resolver's compound
    text field, e.g. `"Dubai;DXB&..."`. */
module AirportCode {

  import opened JsText

  /** `text.substring(text.indexOf(";") + 1, text.indexOf("&", text.indexOf(";") + 1))`:
      the part between the first `;` and the next `&` after it, with the
      JavaScript clamp-and-swap behaviour when a delimiter is missing. */
  function ExtractCode(text: string): (code: string)
    ensures |code| <= |text|
    ensures var i := IndexOf(text, ';', 0);
      var j := IndexOf(text, '&', i + 1);
      && (0 <= i && 0 <= j ==> code == text[i + 1..j] && '&' !in code)
      && (0 <= i && j < 0 ==> code == text[..i + 1])
      && (i < 0 && 0 <= j ==> code == text[..j])
      && (i < 0 && j < 0 ==> code == [])
  {
    var semi := IndexOf(text, ';', 0);
    Substring(text, semi + 1, IndexOf(text, '&', semi + 1))
  }

  /** Both delimiters present: exactly the characters strictly between
      them, none of which is `&`. */
  lemma CodeBetweenDelimiters(text: string, i: int, j: int)
    requires FirstFrom(text, ';', 0, i)
    requires FirstFrom(text, '&', i + 1, j)
    ensures ExtractCode(text) == text[i + 1..j]
    ensures |ExtractCode(text)| == j - i - 1
    ensures forall k :: 0 <= k < |ExtractCode(text)| ==> ExtractCode(text)[k] != '&'
  {
    IndexOfFinds(text, ';', 0, i);
    IndexOfFinds(text, '&', i + 1, j);
  }

  /** A `;` but no `&` after it: the end position -1 clamps to 0 and the
      two positions swap, giving the prefix up to and including the `;`. */
  lemma CodeWithoutAmpersand(text: string, i: int)
    requires FirstFrom(text, ';', 0, i)
    requires NoneFrom(text, '&', i + 1)
    ensures ExtractCode(text) == text[..i + 1]
  {
    IndexOfFinds(text, ';', 0, i);
    IndexOfMisses(text, '&', i + 1);
  }

  /** No `;`: the search for `&` starts at 0 and the prefix before the
      first `&` comes back. */
  lemma CodeWithoutSemicolon(text: string, j: int)
    requires NoneFrom(text, ';', 0)
    requires FirstFrom(text, '&', 0, j)
    ensures ExtractCode(text) == text[..j]
  {
    IndexOfMisses(text, ';', 0);
    IndexOfFinds(text, '&', 0, j);
  }

  /** Neither delimiter: the empty string, never a failure. */
  lemma CodeWithoutDelimiters(text: string)
    requires NoneFrom(text, ';', 0)
    requires NoneFrom(text, '&', 0)
    ensures ExtractCode(text) == ""
  {
    IndexOfMisses(text, ';', 0);
    IndexOfMisses(text, '&', 0);
  }

  /** The resolver text a city and code make, in the shape the service
      returns. */
  function ResolverText(city: string, code: string, rest: string): (text: string)
    ensures |text| == |city| + |code| + |rest| + 2
  {
    city + ";" + code + "&" + rest
  }

  /** Extraction inverts the resolver's layout whenever the city holds no
      `;` and the code no `&`. */
  lemma {:induction false} ExtractCodeRoundTrip(city: string, code: string, rest: string)
    requires forall k :: 0 <= k < |city| ==> city[k] != ';'
    requires forall k :: 0 <= k < |code| ==> code[k] != '&'
    ensures ExtractCode(ResolverText(city, code, rest)) == code
  {
    var text := ResolverText(city, code, rest);
    var i := |city|;
    var j := |city| + 1 + |code|;
    assert text[i] == ';';
    assert forall m :: 0 <= m < i ==> text[m] == city[m];
    assert FirstFrom(text, ';', 0, i);
    assert text[j] == '&';
    assert forall m :: i + 1 <= m < j ==> text[m] == code[m - i - 1];
    assert FirstFrom(text, '&', i + 1, j);
    CodeBetweenDelimiters(text, i, j);
    assert text[i + 1..j] == code;
  }

  /** A resolver text for Dubai in the `city;code&rest` layout. */
  lemma DubaiExample()
    ensures ExtractCode("Dubai;DXB&Dubai International Airport") == "DXB"
  {
    assert ResolverText("Dubai", "DXB", "Dubai International Airport")
        == "Dubai;DXB&Dubai International Airport";
    ExtractCodeRoundTrip("Dubai", "DXB", "Dubai International Airport");
  }
}

=== FILE: booking.dfy ===
/** `flightBooking`, the intent handler: guards on the conversation
    memory and the date entity, resolves both airport codes, searches, and
    replies. The resolver, the search service and the airline dataset are
    parameters; what the handler does with their results is modelled. */
module Booking {

  import opened Optional
  import opened AirportCode
  import opened AirlineDirectory
  import opened FlightSearch
  import opened ResponseFormat

  const AskForLocations := "Please enter a valid Source and Destination"
  const AskForDate := "When do you wanna travel?"

  /** A location entity held in the conversation memory. */
  datatype Location = Location(raw: string)

  /** `result.memory`: either entity may be missing. */
  datatype Memory = Memory(source: Option<Location>, destination: Option<Location>)

  /** How the handler's promise settles: with a reply, or rejected by a
      failure nobody catches (no reply at all). */
  datatype Outcome = Replied(response: Response) | Rejected

  /** One conversational turn: how it settled, the keywords sent to the
      airport resolver, the search request issued (if any), and whether
      the memory was reset. */
  datatype Turn = Turn(outcome: Outcome, lookups: seq<string>, request: Option<SearchRequest>, memoryReset: bool)

  /** The inputs under which the handler gets as far as a search: both
      locations known and resolved, and a non-empty date entity list. */
  predicate ReachesSearch(memory: Memory, datetime: Option<seq<DateParts>>, resolve: string -> Option<string>) {
    && memory.source.Some? && memory.destination.Some?
    && resolve(memory.source.value.raw).Some?
    && resolve(memory.destination.value.raw).Some?
    && datetime.Some? && |datetime.value| > 0
  }

  /** The request the handler sends: the destination's code as origin,
      the source's code as destination, and the first date entity. */
  function RequestFor(memory: Memory, datetime: Option<seq<DateParts>>, resolve: string -> Option<string>): (r: SearchRequest)
    requires ReachesSearch(memory, datetime, resolve)
  {
    SearchRequest(ExtractCode(resolve(memory.destination.value.raw).value),
                  ExtractCode(resolve(memory.source.value.raw).value),
                  DepartureDate(datetime.value[0]))
  }

  /** The handler. `resolve` gives the resolver's text field for a keyword
      (`None` when the call or the parse fails); `search` gives the search
      service's answer (`None` when the call fails, or when the answer has no error in
      its first item and no itinerary item); `datetime` is the `datetime` entity list, already
      parsed into calendar fields. */
  function FlightBooking(
    memory: Memory,
    datetime: Option<seq<DateParts>>,
    resolve: string -> Option<string>,
    search: SearchRequest -> Option<SearchResponse>,
    airlines: seq<AirlineRecord>): (t: Turn)
    ensures memory.source.None? || memory.destination.None? ==>
      t == Turn(Replied(Text(AskForLocations)), [], None, false)
    ensures memory.source.Some? && memory.destination.Some? ==>
      t.lookups == [memory.source.value.raw, memory.destination.value.raw]
    ensures t.request.Some? ==>
      && memory.source.Some? && memory.destination.Some?
      && resolve(memory.source.value.raw).Some?
      && resolve(memory.destination.value.raw).Some?
      && datetime.Some? && |datetime.value| > 0
      && t.request.value.origin == ExtractCode(resolve(memory.destination.value.raw).value)
      && t.request.value.destination == ExtractCode(resolve(memory.source.value.raw).value)
      && t.request.value.departureDate == DepartureDate(datetime.value[0])
    ensures t.memoryReset <==> t.request.Some? && search(t.request.value).Some?
  {
    if memory.destination.Some? && memory.source.Some? then
      var lookups := [memory.source.value.raw, memory.destination.value.raw];
      var sourceText := resolve(memory.source.value.raw);
      var destinationText := resolve(memory.destination.value.raw);
      if sourceText.None? || destinationText.None? then
        Turn(Rejected, lookups, None, false)
      else
        var airports := [ExtractCode(sourceText.value), ExtractCode(destinationText.value)];
        match datetime
        case None => Turn(Replied(Text(AskForDate)), lookups, None, false)
        case Some(entities) =>
          if |entities| == 0 then
            Turn(Rejected, lookups, None, false)
          else
            var request := SearchRequest(airports[1], airports[0], DepartureDate(entities[0]));
            assert request == RequestFor(memory, datetime, resolve);
            Answered(lookups, request, search(request), airlines)
    else
      Turn(Replied(Text(AskForLocations)), [], None, false)
  }

  /** The turn once the search request is out, given the search's answer:
      the memory is reset as soon as the answer arrives, before it is read
      any further. */
  function Answered(lookups: seq<string>, request: SearchRequest, answer: Option<SearchResponse>,
                    airlines: seq<AirlineRecord>): (t: Turn)
    ensures t.lookups == lookups && t.request == Some(request)
    ensures t.memoryReset <==> answer.Some?
  {
    match answer
    case None => Turn(Rejected, lookups, Some(request), false)
    case Some(response) =>
      match Reply(ShapeResult(response), airlines)
      case None => Turn(Rejected, lookups, Some(request), true)
      case Some(reply) => Turn(Replied(reply), lookups, Some(request), true)
  }

  /** A search answer the reply cannot be built from: its error entry has
      no `Type`, or it has no error and one of the first five itineraries
      lacks one of the objects the card loop reads through. */
  predicate Unreadable(response: SearchResponse) {
    || response.error.Untyped?
    || (&& response.error.NoError?
        && exists k :: 0 <= k < |response.pricedItineraries| && k < MaxFlights
                       && response.pricedItineraries[k].None?)
  }

  /** The reply throws exactly on an unreadable answer. */
  lemma ReplyFailsIffUnreadable(response: SearchResponse, airlines: seq<AirlineRecord>)
    ensures Reply(ShapeResult(response), airlines).None? <==> Unreadable(response)
  {
    var shaped := ShapeResult(response);
    if response.error.NoError? {
      forall k | 0 <= k < |shaped.flights|
        ensures shaped.flights[k] == response.pricedItineraries[k]
      {
      }
    }
  }

  /** Once the handler gets as far as a search, the turn is decided by
      the search's answer to the request alone. */
  lemma TurnAfterSearch(
    memory: Memory, datetime: Option<seq<DateParts>>, resolve: string -> Option<string>,
    search: SearchRequest -> Option<SearchResponse>, airlines: seq<AirlineRecord>)
    requires ReachesSearch(memory, datetime, resolve)
    ensures var request := RequestFor(memory, datetime, resolve);
      FlightBooking(memory, datetime, resolve, search, airlines)
        == Answered([memory.source.value.raw, memory.destination.value.raw], request, search(request), airlines)
  {
  }

  /** A search service that gives the same answer to every request. */
  function AnswerWith(response: SearchResponse): SearchRequest -> Option<SearchResponse> {
    _ => Some(response)
  }

  /** Both locations known, both resolved, no date entity: the handler asks
      for a date and neither searches nor resets the memory. */
  lemma AsksForDateWithoutDatetime(
    memory: Memory, resolve: string -> Option<string>,
    search: SearchRequest -> Option<SearchResponse>, airlines: seq<AirlineRecord>)
    requires memory.source.Some? && memory.destination.Some?
    requires resolve(memory.source.value.raw).Some? && resolve(memory.destination.value.raw).Some?
    ensures var t := FlightBooking(memory, None, resolve, search, airlines);
      && t.outcome == Replied(Text(AskForDate))
      && |t.lookups| == 2
      && t.request == None
      && !t.memoryReset
  {
  }

  /** A search request goes out exactly when both locations are known,
      both resolve, and a date entity is present. */
  lemma SearchIssuedIff(
    memory: Memory, datetime: Option<seq<DateParts>>, resolve: string -> Option<string>,
    search: SearchRequest -> Option<SearchResponse>, airlines: seq<AirlineRecord>)
    ensures FlightBooking(memory, datetime, resolve, search, airlines).request.Some?
        <==> ReachesSearch(memory, datetime, resolve)
  {
  }

  /** The turn produces a reply unless a resolver lookup fails, the date
      entity list is empty, the search fails, or its answer is
      unreadable. */
  lemma RepliesUnlessExternalFailure(
    memory: Memory, datetime: Option<seq<DateParts>>, resolve: string -> Option<string>,
    search: SearchRequest -> Option<SearchResponse>, airlines: seq<AirlineRecord>)
    ensures var t := FlightBooking(memory, datetime, resolve, search, airlines);
      t.outcome.Rejected? <==>
        && memory.source.Some? && memory.destination.Some?
        && (|| resolve(memory.source.value.raw).None?
            || resolve(memory.destination.value.raw).None?
            || (datetime.Some? && |datetime.value| == 0)
            || (t.request.Some? && search(t.request.value).None?)
            || (t.request.Some? && search(t.request.value).Some? && Unreadable(search(t.request.value).value)))
  {
    var t := FlightBooking(memory, datetime, resolve, search, airlines);
    if t.request.Some? && search(t.request.value).Some? {
      ReplyFailsIffUnreadable(search(t.request.value).value, airlines);
    }
  }

  /** An unreadable answer leaves the turn without a reply, after the
      memory has already been reset. */
  lemma UnreadableAnswerRejectedAfterReset(
    memory: Memory, datetime: Option<seq<DateParts>>, resolve: string -> Option<string>,
    response: SearchResponse, airlines: seq<AirlineRecord>)
    requires ReachesSearch(memory, datetime, resolve)
    requires Unreadable(response)
    ensures var t := FlightBooking(memory, datetime, resolve, AnswerWith(response), airlines);
      t.outcome == Rejected && t.memoryReset
  {
    TurnAfterSearch(memory, datetime, resolve, AnswerWith(response), airlines);
    ReplyFailsIffUnreadable(response, airlines);
  }

  /** Only the answer to the request actually issued matters: the turn is
      the same as with a service that always gives that answer, so the
      lemmas stated for such services hold for every service. */
  lemma SearchSeenOnlyAtRequest(
    memory: Memory, datetime: Option<seq<DateParts>>, resolve: string -> Option<string>,
    search: SearchRequest -> Option<SearchResponse>, airlines: seq<AirlineRecord>)
    requires ReachesSearch(memory, datetime, resolve)
    ensures var t := FlightBooking(memory, datetime, resolve, search, airlines);
      search(t.request.value).Some? ==>
        t == FlightBooking(memory, datetime, resolve, AnswerWith(search(t.request.value).value), airlines)
  {
    var request := RequestFor(memory, datetime, resolve);
    TurnAfterSearch(memory, datetime, resolve, search, airlines);
    if search(request).Some? {
      TurnAfterSearch(memory, datetime, resolve, AnswerWith(search(request).value), airlines);
    }
  }

  /** A search that answers with a non-empty error in its first item: the
      memory is reset and the error is relayed verbatim as text. */
  lemma SearchErrorRelayed(
    memory: Memory, datetime: Option<seq<DateParts>>, resolve: string -> Option<string>,
    error: string, itineraries: seq<PricedItinerary>, airlines: seq<AirlineRecord>)
    requires ReachesSearch(memory, datetime, resolve)
    requires |error| > 0
    ensures var t := FlightBooking(memory, datetime, resolve,
                                   AnswerWith(SearchResponse(Typed(error), itineraries)), airlines);
      && t.memoryReset
      && t.outcome == Replied(Text(error))
  {
    TurnAfterSearch(memory, datetime, resolve, AnswerWith(SearchResponse(Typed(error), itineraries)), airlines);
  }

  /** An error type that is the empty string fails the `length` test, so
      the reply is a list, and with no flights kept it holds no card. */
  lemma EmptyErrorGivesEmptyList(
    memory: Memory, datetime: Option<seq<DateParts>>, resolve: string -> Option<string>,
    itineraries: seq<PricedItinerary>, airlines: seq<AirlineRecord>)
    requires ReachesSearch(memory, datetime, resolve)
    ensures FlightBooking(memory, datetime, resolve,
                          AnswerWith(SearchResponse(Typed(""), itineraries)), airlines).outcome
         == Replied(List([]))
  {
    TurnAfterSearch(memory, datetime, resolve, AnswerWith(SearchResponse(Typed(""), itineraries)), airlines);
  }

  /** The reply to an answer without an error whose first five
      itineraries are complete: one card for each, in order. */
  lemma ReplyListsKeptFlights(itineraries: seq<PricedItinerary>, airlines: seq<AirlineRecord>)
    requires forall k :: 0 <= k < |itineraries| && k < MaxFlights ==> itineraries[k].Some?
    ensures var r := Reply(ShapeResult(SearchResponse(NoError, itineraries)), airlines);
      && r.Some? && r.value.List?
      && |r.value.elements| == (if |itineraries| < MaxFlights then |itineraries| else MaxFlights)
      && forall k :: 0 <= k < |r.value.elements| ==>
           r.value.elements[k] == BuildCard(itineraries[k].value, airlines)
  {
    var shaped := ShapeResult(SearchResponse(NoError, itineraries));
    forall k | 0 <= k < |shaped.flights|
      ensures shaped.flights[k] == itineraries[k] && shaped.flights[k].Some?
    {
    }
  }

  /** A search that answers without an error, with its first five
      itineraries complete: the memory is reset and the reply lists one
      card for each of them, in the service's order. */
  lemma FlightsListed(
    memory: Memory, datetime: Option<seq<DateParts>>, resolve: string -> Option<string>,
    itineraries: seq<PricedItinerary>, airlines: seq<AirlineRecord>)
    requires ReachesSearch(memory, datetime, resolve)
    requires forall k :: 0 <= k < |itineraries| && k < MaxFlights ==> itineraries[k].Some?
    ensures var t := FlightBooking(memory, datetime, resolve,
                                   AnswerWith(SearchResponse(NoError, itineraries)), airlines);
      && t.memoryReset
      && t.outcome.Replied? && t.outcome.response.List?
      && |t.outcome.response.elements| == (if |itineraries| < MaxFlights then |itineraries| else MaxFlights)
      && forall k :: 0 <= k < |t.outcome.response.elements| ==>
           t.outcome.response.elements[k] == BuildCard(itineraries[k].value, airlines)
  {
    TurnAfterSearch(memory, datetime, resolve, AnswerWith(SearchResponse(NoError, itineraries)), airlines);
    ReplyListsKeptFlights(itineraries, airlines);
  }

  /** The example of a search reporting no flights. */
  lemma NoFlightsFoundExample(
    memory: Memory, datetime: Option<seq<DateParts>>, resolve: string -> Option<string>,
    airlines: seq<AirlineRecord>)
    requires ReachesSearch(memory, datetime, resolve)
    ensures FlightBooking(memory, datetime, resolve, AnswerWith(SearchResponse(Typed("NoFlightsFound"), [])), airlines).outcome
         == Replied(Text("NoFlightsFound"))
  {
    SearchErrorRelayed(memory, datetime, resolve, "NoFlightsFound", [], airlines);
  }
}

=== FILE: flight_search.dfy ===
/** The flight-search request `flightBooking` builds and the shaping
    `getFlightDetails` applies to the search service's answer. */
module FlightSearch {

  import opened Optional
  import opened JsText
  import opened TimeFormat

  /** At most this many itineraries are kept from one search. */
  const MaxFlights := 5

  /** The facts of one priced itinerary that the reply uses: the first
      segment's carrier, times and flight number, and the first option's
      total duration. Flight number and duration are kept as the text
      they render to, which is `undefined` when the field is missing. */
  datatype Itinerary = Itinerary(
    carrier: string,
    departure: Clock,
    arrival: Clock,
    flightNumber: string,
    durationMinutes: string)

  /** One entry of `Items[1].PricedItinerary`: `None` for an entry lacking
      one of the objects the card loop reads through (pricing
      information, `PriceRequestInformation`, the first option, its first
      segment, `OperatingAirline`), so that the read throws. */
  type PricedItinerary = Option<Itinerary>

  /** The varying part of the search body: origin, destination and date. */
  datatype SearchRequest = SearchRequest(origin: string, destination: string, departureDate: string)

  /** `Items[0].Error` of the search answer: absent, or a first entry with
      or without a `Type`. (An `Error` array with no first entry makes
      reading its `Type` throw, so the search itself fails.) */
  datatype ErrorEntry = NoError | Typed(kind: string) | Untyped

  /** The search service's answer: the first item's error and the
      `Items[1].PricedItinerary` collection in key order. */
  datatype SearchResponse = SearchResponse(error: ErrorEntry, pricedItineraries: seq<PricedItinerary>)

  /** What `getFlightDetails` resolves to; an `error` of `None` is the
      `undefined` read from an untyped error entry. */
  datatype SearchResult = SearchResult(error: Option<string>, flights: seq<PricedItinerary>)

  /** `getFlightDetails`'s `.then`: an error in the first item is passed on
      (its `Type`, possibly undefined) with no flights; otherwise the error
      is empty and the first five itineraries are kept, in the order the
      service listed them. */
  function ShapeResult(response: SearchResponse): (r: SearchResult)
    ensures response.error.Typed? ==>
      r.error == Some(response.error.kind) && r.flights == []
    ensures response.error.Untyped? ==> r.error == None && r.flights == []
    ensures response.error.NoError? ==>
      && r.error == Some("")
      && r.flights <= response.pricedItineraries
      && |r.flights| == (if |response.pricedItineraries| < MaxFlights then |response.pricedItineraries| else MaxFlights)
  {
    match response.error
    case Typed(kind) => SearchResult(Some(kind), [])
    case Untyped => SearchResult(None, [])
    case NoError =>
      var all := response.pricedItineraries;
      SearchResult(Some(""), if |all| <= MaxFlights then all else all[..MaxFlights])
  }

  /** Shaping an answer that already holds a shaped list changes nothing. */
  lemma ShapeResultIdempotent(response: SearchResponse)
    requires response.error.NoError?
    ensures var once := ShapeResult(response);
      ShapeResult(SearchResponse(NoError, once.flights)) == once
  {
  }

  /** Itineraries beyond the first five never influence the result. */
  lemma ShapeResultIgnoresTail(response: SearchResponse, extra: seq<PricedItinerary>)
    requires MaxFlights <= |response.pricedItineraries|
    ensures ShapeResult(SearchResponse(response.error, response.pricedItineraries + extra))
         == ShapeResult(response)
  {
    var all := response.pricedItineraries;
    assert (all + extra)[..MaxFlights] == all[..MaxFlights];
  }

  /** `Date.prototype.getMonth` (zero-based) and `getDate` ranges. */
  type MonthIndex = m: int | 0 <= m < 12
  type DayOfMonth = d: int | 1 <= d <= 31 witness 1

  /** The calendar fields of the first `datetime` entity's parsed date. */
  datatype DateParts = DateParts(year: nat, monthIndex: MonthIndex, day: DayOfMonth)

  /** `year + '-' + (month + 1) + '-' + day`, without zero padding: each
      field is exactly as long as its number's decimal text. */
  function DepartureDate(d: DateParts): (r: string)
    ensures |r| == |NatToString(d.year)| + 2
                 + (if d.monthIndex + 1 < 10 then 1 else 2)
                 + (if d.day < 10 then 1 else 2)
  {
    NatToString(d.year) + "-" + NatToString(d.monthIndex + 1) + "-" + NatToString(d.day)
  }

  /** Reads a `year-month-day` text back; the month comes back zero-based.
      `None` for text of any other shape. */
  function ParseDate(s: string): (r: Option<DateParts>)
  {
    var i := IndexOf(s, '-', 0);
    var j := IndexOf(s, '-', i + 1);
    if i < 0 || j < 0 then None
    else
      match (ParseNat(s[..i]), ParseNat(s[i + 1..j]), ParseNat(s[j + 1..]))
      case (Some(y), Some(m), Some(d)) =>
        if 1 <= m <= 12 && 1 <= d <= 31 then Some(DateParts(y, m - 1, d)) else None
      case _ => None
  }

  /** Digits never contain the `-` separator. */
  lemma DigitsHaveNoDash(s: string)
    requires AllDigits(s)
    ensures forall k :: 0 <= k < |s| ==> s[k] != '-'
  {
  }

  /** The date layout over arbitrary digit fields: where the parser's
      two searches for `-` land, and the slices it cuts. */
  lemma {:induction false} DateLayout(y: string, m: string, d: string)
    requires AllDigits(y) && AllDigits(m)
    ensures var s := y + "-" + m + "-" + d;
      && IndexOf(s, '-', 0) == |y|
      && IndexOf(s, '-', |y| + 1) == |y| + 1 + |m|
      && s[..|y|] == y
      && s[|y| + 1..|y| + 1 + |m|] == m
      && s[|y| + 2 + |m|..] == d
  {
    var s := y + "-" + m + "-" + d;
    var i := |y|;
    var j := |y| + 1 + |m|;
    DigitsHaveNoDash(y);
    DigitsHaveNoDash(m);
    assert forall k :: 0 <= k < i ==> s[k] == y[k];
    assert FirstFrom(s, '-', 0, i);
    IndexOfFinds(s, '-', 0, i);
    assert forall k :: i + 1 <= k < j ==> s[k] == m[k - i - 1];
    assert FirstFrom(s, '-', i + 1, j);
    IndexOfFinds(s, '-', i + 1, j);
  }

  /** The parser's last step: separators found and fields read. */
  lemma ParseDateFields(s: string, i: int, j: int, d: DateParts)
    requires IndexOf(s, '-', 0) == i && IndexOf(s, '-', i + 1) == j
    requires 0 <= i < j < |s|
    requires ParseNat(s[..i]) == Some(d.year)
    requires ParseNat(s[i + 1..j]) == Some(d.monthIndex + 1)
    requires ParseNat(s[j + 1..]) == Some(d.day)
    ensures ParseDate(s) == Some(d)
  {
  }

  /** The departure date reads back as the date it was built from; in
      particular its middle field is the one-based month, 1 through 12. */
  lemma {:induction false} DepartureDateRoundTrip(d: DateParts)
    ensures ParseDate(DepartureDate(d)) == Some(d)
  {
    var y := NatToString(d.year);
    var m := NatToString(d.monthIndex + 1);
    var dd := NatToString(d.day);
    var s := DepartureDate(d);
    assert s == y + "-" + m + "-" + dd;
    DateLayout(y, m, dd);
    NatToStringRoundTrip(d.year);
    NatToStringRoundTrip(d.monthIndex + 1);
    NatToStringRoundTrip(d.day);
    ParseDateFields(s, |y|, |y| + 1 + |m|, d);
  }

  /** Distinct dates give distinct request dates. */
  lemma DepartureDateInjective(d: DateParts, e: DateParts)
    requires DepartureDate(d) == DepartureDate(e)
    ensures d == e
  {
    DepartureDateRoundTrip(d);
    DepartureDateRoundTrip(e);
  }

  /** A single-digit month and day stay unpadded. */
  lemma DepartureDateExample()
    ensures DepartureDate(DateParts(2018, 2, 5)) == "2018-3-5"
  {
    assert NatToString(2) == "2";
    assert NatToString(20) == NatToString(2) + [DigitChar(0)] == "20";
    assert NatToString(201) == NatToString(20) + [DigitChar(1)] == "201";
    assert NatToString(2018) == NatToString(201) + [DigitChar(8)] == "2018";
    assert NatToString(3) == "3";
    assert NatToString(5) == "5";
  }
}

=== FILE: js_text.dfy ===
/** The JavaScript string primitives the flight-booking handler relies on,
    written over `seq<char>` with the edge cases of the ECMAScript 2023
    standard (ECMA-262, 14th edition): `String.prototype.indexOf`
    (section 22.1.3.9) for a one-character pattern,
    `String.prototype.substring` (section 22.1.3.24),
    and the decimal rendering of a non-negative integer that `+` performs
    when a number meets a string. */
module JsText {

  import opened Optional

  /** A string position clamped into `[0, len]`, as both primitives do. */
  function Clamp(k: int, len: nat): (r: nat)
    ensures r <= len
    ensures 0 <= k <= len ==> r == k
    ensures k < 0 ==> r == 0
    ensures len < k ==> r == len
  {
    if k < 0 then 0 else if len < k then len else k
  }

  /** `i` is the first position at or after `from` holding `c`. */
  ghost predicate FirstFrom(s: string, c: char, from: int, i: int) {
    && 0 <= from <= i < |s|
    && s[i] == c
    && forall m :: from <= m < i ==> s[m] != c
  }

  /** No position at or after `from` holds `c`. */
  ghost predicate NoneFrom(s: string, c: char, from: int) {
    forall m :: from <= m < |s| && 0 <= m ==> s[m] != c
  }

  /** Left-to-right scan for `c` starting at position `k`. */
  function IndexFrom(s: string, c: char, k: nat): (r: int)
    requires k <= |s|
    ensures r == -1 || FirstFrom(s, c, k, r)
    ensures r == -1 <==> NoneFrom(s, c, k)
    decreases |s| - k
  {
    if k == |s| then -1
    else if s[k] == c then k
    else IndexFrom(s, c, k + 1)
  }

  /** `s.indexOf(c, from)`: the first position at or after the clamped
      `from` that holds `c`, or -1 when there is none. */
  function IndexOf(s: string, c: char, from: int): (r: int)
    ensures r == -1 || FirstFrom(s, c, Clamp(from, |s|), r)
    ensures r == -1 <==> NoneFrom(s, c, Clamp(from, |s|))
  {
    IndexFrom(s, c, Clamp(from, |s|))
  }

  /** Any first occurrence is the one `IndexOf` reports. */
  lemma IndexOfFinds(s: string, c: char, from: nat, i: int)
    requires FirstFrom(s, c, from, i)
    ensures IndexOf(s, c, from) == i
  {
    assert Clamp(from, |s|) == from;
  }

  /** With no occurrence at or after `from`, `IndexOf` reports -1. */
  lemma IndexOfMisses(s: string, c: char, from: int)
    requires 0 <= from <= |s|
    requires NoneFrom(s, c, from)
    ensures IndexOf(s, c, from) == -1
  {
  }

  /** `s.substring(start, end)`: both positions are clamped into `[0, |s|]`
      and swapped when the start lies after the end. */
  function Substring(s: string, start: int, end: int): (r: string)
    ensures 0 <= start <= end <= |s| ==> r == s[start..end]
    ensures 0 <= end <= start <= |s| ==> r == s[end..start]
    ensures start <= 0 && 0 <= end <= |s| ==> r == s[..end]
    ensures end <= 0 && 0 <= start <= |s| ==> r == s[..start]
    ensures start <= 0 && end <= 0 ==> r == []
    ensures |s| <= end && 0 <= start <= |s| ==> r == s[start..]
    ensures |s| <= start && 0 <= end <= |s| ==> r == s[end..]
    ensures |r| <= |s|
  {
    var a := Clamp(start, |s|);
    var b := Clamp(end, |s|);
    if a <= b then s[a..b] else s[b..a]
  }

  /** The order of the two positions never matters. */
  lemma SubstringSymmetric(s: string, start: int, end: int)
    ensures Substring(s, start, end) == Substring(s, end, start)
  {
  }

  predicate IsDigit(c: char) {
    '0' <= c <= '9'
  }

  predicate AllDigits(s: string) {
    forall k :: 0 <= k < |s| ==> IsDigit(s[k])
  }

  function DigitChar(d: nat): (c: char)
    requires d < 10
    ensures IsDigit(c)
  {
    (('0' as int) + d) as char
  }

  function DigitValue(c: char): (d: nat)
    requires IsDigit(c)
    ensures d < 10
  {
    (c as int) - ('0' as int)
  }

  /** The decimal text of a non-negative integer: digits only, no leading
      zero, as `String(n)` renders it. */
  function NatToString(n: nat): (r: string)
    ensures 1 <= |r|
    ensures AllDigits(r)
    ensures r[0] == '0' ==> n == 0
    ensures n < 10 <==> |r| == 1
    ensures 10 <= n < 100 ==> |r| == 2
    decreases n
  {
    if n < 10 then [DigitChar(n)]
    else NatToString(n / 10) + [DigitChar(n % 10)]
  }

  /** The number a string of digits denotes (leading zeros allowed). */
  function DecimalValue(s: string): nat
    requires AllDigits(s)
  {
    if |s| == 0 then 0
    else DecimalValue(s[..|s| - 1]) * 10 + DigitValue(s[|s| - 1])
  }

  /** Reads a non-empty run of digits back as a number. */
  function ParseNat(s: string): (r: Option<nat>)
    ensures r.Some? <==> 1 <= |s| && AllDigits(s)
  {
    if 1 <= |s| && AllDigits(s) then Some(DecimalValue(s)) else None
  }

  /** Rendering a number and reading it back gives the number. */
  lemma {:induction false} NatToStringRoundTrip(n: nat)
    ensures ParseNat(NatToString(n)) == Some(n)
    decreases n
  {
    var s := NatToString(n);
    if n < 10 {
      assert s[..0] == [];
    } else {
      NatToStringRoundTrip(n / 10);
      var front := NatToString(n / 10);
      assert s[..|s| - 1] == front;
      assert DecimalValue(s) == DecimalValue(front) * 10 + n % 10;
    }
  }

  /** Digit strings of at most two characters are fixed by their
      length and value. */
  lemma ShortDigitsUnique(x: string, y: string)
    requires |x| == |y| <= 2 && AllDigits(x) && AllDigits(y)
    requires DecimalValue(x) == DecimalValue(y)
    ensures x == y
  {
    if |x| == 1 {
      assert x[..0] == [] && y[..0] == [];
    } else if |x| == 2 {
      assert x[..1][..0] == [] && y[..1][..0] == [];
      assert DecimalValue(x[..1]) == DigitValue(x[0]) && DecimalValue(y[..1]) == DigitValue(y[0]);
      assert DecimalValue(x) == DigitValue(x[0]) * 10 + DigitValue(x[1]);
      assert DecimalValue(y) == DigitValue(y[0]) * 10 + DigitValue(y[1]);
    }
  }

  /** Below 100, the decimal text is the shortest digit string denoting
      the number, and the only one of its length: a digit string read as
      `n` is longer than `NatToString(n)` or equal to it. */
  lemma {:induction false} NatToStringShortest(x: string, n: nat)
    requires n < 100 && ParseNat(x) == Some(n)
    ensures |NatToString(n)| <= |x|
    ensures |NatToString(n)| == |x| ==> x == NatToString(n)
  {
    NatToStringRoundTrip(n);
    var r := NatToString(n);
    if |x| == 1 {
      assert x[..0] == [];
      assert n < 10;
    }
    if |x| == |r| {
      ShortDigitsUnique(x, r);
    }
  }

  /** Distinct numbers render to distinct strings. */
  lemma NatToStringInjective(m: nat, n: nat)
    requires NatToString(m) == NatToString(n)
    ensures m == n
  {
    NatToStringRoundTrip(m);
    NatToStringRoundTrip(n);
  }
}

=== FILE: optional.dfy ===
/** A value that may be absent: JavaScript's `undefined`/`null`, or the
    outcome of an external step that may fail. */
module Optional {

  datatype Option<+T> = None | Some(value: T) {

    /** The wrapped value, or `default` when absent. */
    function GetOr(default: T): T {
      match this
      case Some(v) => v
      case None => default
    }
  }
}

=== FILE: response_format.dfy ===
/** The chat reply `flightBooking` builds once the search has answered:
    one card per kept itinerary, or the search error as text. */
module ResponseFormat {

  import opened Optional
  import opened JsText
  import opened TimeFormat
  import opened AirlineDirectory
  import opened FlightSearch

  /** The single action every card carries; its target is fixed and does
      not depend on the itinerary. */
  const BookFlightTitle := "Book Flight"
  const BookFlightKind := "web_url"
  const BookFlightUrl := "https://assets-cdn.github.com/images/modules/logos_page/Octocat.png"

  datatype Button = Button(title: string, kind: string, value: string)

  /** `imageUrl` is `None` where the source leaves it `undefined`. */
  datatype Card = Card(title: string, imageUrl: Option<string>, subtitle: string, buttons: seq<Button>)

  /** The reply handed back to the chat framework. */
  datatype Response = Text(content: string) | List(elements: seq<Card>)

  /** `details != undefined && details != null`: a dataset record and the
      empty object `{}` are both objects, so the test always passes. */
  predicate IsPresent(d: Details): (b: bool)
    ensures b
  {
    match d
    case Empty => true
    case Found(_) => true
  }

  /** `details.name`: `undefined` on the empty object. */
  function NameProperty(d: Details): (r: Option<string>)
    ensures r.Some? <==> d.Found?
    ensures d.Found? ==> r.value == d.record.name
  {
    match d
    case Empty => None
    case Found(rec) => Some(rec.name)
  }

  /** `details.logoLink`: `undefined` on the empty object. */
  function LogoProperty(d: Details): (r: Option<string>)
    ensures r.Some? <==> d.Found?
    ensures d.Found? ==> r.value == d.record.logoLink
  {
    match d
    case Empty => None
    case Found(rec) => Some(rec.logoLink)
  }

  /** What string concatenation makes of a possibly-undefined value. */
  function Render(v: Option<string>): (r: string)
    ensures v.Some? ==> r == v.value
    ensures v.None? ==> r == "undefined"
  {
    v.GetOr("undefined")
  }

  /** `name + '( Flight No: ' + flightNumber + ' )'` */
  function Title(name: string, flightNumber: string): (r: string)
    ensures |r| == |name| + |flightNumber| + 15
    ensures r[..|name|] == name
    ensures r[|name|..|name| + 13] == "( Flight No: "
    ensures r[|r| - |flightNumber| - 2..|r| - 2] == flightNumber
    ensures r[|r| - 2..] == " )"
  {
    var r := name + "( Flight No: " + flightNumber + " )";
    assert r[..|name|] == name;
    assert r[|name|..|name| + 13] == "( Flight No: ";
    assert r[|r| - |flightNumber| - 2..|r| - 2] == flightNumber;
    r
  }

  /** `departure + ' - ' + arrival + ' ( ' + duration + 'mins ) '`, with
      both times in `formatAMPM` form. The subtitle carries the departure,
      the arrival and the duration text recoverably: parsing it gives all
      three back. */
  function Subtitle(departure: Clock, arrival: Clock, duration: string): (s: string)
    ensures |s| == |FormatAMPM(departure)| + |FormatAMPM(arrival)| + |duration| + 13
    ensures ParseSubtitle(s) == Some((departure, arrival, duration))
  {
    SubtitleTextParses(departure, arrival, duration);
    FormatAMPM(departure) + " - " + FormatAMPM(arrival) + " ( " + duration + "mins ) "
  }

  /** The proof behind `Subtitle`'s contract. */
  lemma {:induction false} SubtitleTextParses(departure: Clock, arrival: Clock, duration: string)
    ensures ParseSubtitle(FormatAMPM(departure) + " - " + FormatAMPM(arrival) + " ( " + duration + "mins ) ")
         == Some((departure, arrival, duration))
  {
    ClockTextHasNoSeparators(departure);
    ClockTextHasNoSeparators(arrival);
    FormatAMPMRoundTrip(departure);
    FormatAMPMRoundTrip(arrival);
    SubtitleFieldsParse(FormatAMPM(departure), FormatAMPM(arrival), duration, departure, arrival);
  }

  /** Any two separator-free time texts that read back as clocks, laid
      out as a subtitle, read back as those clocks and the duration. */
  lemma {:induction false} SubtitleFieldsParse(dep: string, arr: string, duration: string,
                                               departure: Clock, arrival: Clock)
    requires forall k :: 0 <= k < |dep| ==> dep[k] != '-'
    requires forall k :: 0 <= k < |arr| ==> arr[k] != '('
    requires ParseAMPM(dep) == Some(departure) && ParseAMPM(arr) == Some(arrival)
    ensures ParseSubtitle(dep + " - " + arr + " ( " + duration + "mins ) ") == Some((departure, arrival, duration))
  {
    var s := dep + " - " + arr + " ( " + duration + "mins ) ";
    SubtitleLayout(dep, arr, duration);
    var i := |dep| + 1;
    var j := |dep| + |arr| + 4;
    assert s[..i - 1] == dep && s[i + 2..j - 1] == arr;
    ParseSubtitleFields(s, i, j, departure, arrival, duration);
  }

  /** The two clauses of `Subtitle`'s contract leave no freedom: a text
      of the subtitle's length that reads back as its three fields is the
      subtitle. A padded hour or another separator is ruled out. */
  lemma {:induction false} SubtitleUnique(s: string, departure: Clock, arrival: Clock, duration: string)
    requires |s| == |FormatAMPM(departure)| + |FormatAMPM(arrival)| + |duration| + 13
    requires ParseSubtitle(s) == Some((departure, arrival, duration))
    ensures s == Subtitle(departure, arrival, duration)
  {
    var dep, arr := ParsedSubtitleLayout(s);
    FormatAMPMShortest(dep, departure);
    FormatAMPMShortest(arr, arrival);
  }

  /** Any text the subtitle parser accepts is laid out as a subtitle
      around the two time texts it read. */
  lemma {:induction false} ParsedSubtitleLayout(s: string) returns (dep: string, arr: string)
    requires ParseSubtitle(s).Some?
    ensures s == dep + " - " + arr + " ( " + ParseSubtitle(s).value.2 + "mins ) "
    ensures ParseAMPM(dep) == Some(ParseSubtitle(s).value.0)
    ensures ParseAMPM(arr) == Some(ParseSubtitle(s).value.1)
  {
    var i := IndexOf(s, '-', 0);
    var j := IndexOf(s, '(', i + 1);
    dep := s[..i - 1];
    arr := s[i + 2..j - 1];
    SubtitleSplit(s, i, j);
  }

  /** A text with ` - ` around position i, ` ( ` around position j and
      the closing `mins ) ` is the concatenation of its pieces. */
  lemma SubtitleSplit(s: string, i: int, j: int)
    requires 1 <= i && i + 3 <= j && j + 9 <= |s|
    requires s[i - 1] == ' ' && s[i] == '-' && s[i + 1] == ' '
    requires s[j - 1] == ' ' && s[j] == '(' && s[j + 1] == ' '
    requires s[|s| - 7..] == "mins ) "
    ensures s == s[..i - 1] + " - " + s[i + 2..j - 1] + " ( " + s[j + 2..|s| - 7] + "mins ) "
  {
    var t := s[..i - 1] + " - " + s[i + 2..j - 1] + " ( " + s[j + 2..|s| - 7] + "mins ) ";
    assert |t| == |s|;
    forall k | 0 <= k < |s|
      ensures s[k] == t[k]
    {
      if |s| - 7 <= k {
        assert s[k] == s[|s| - 7..][k - (|s| - 7)];
      }
    }
  }

  /** Reads a subtitle back into its departure, arrival and duration:
      the departure ends before the first `-`, the arrival before the
      first `(` after it, each separator has a space on both sides, and
      the duration precedes the closing `mins ) `. `None` for text of
      any other shape. */
  function ParseSubtitle(s: string): (r: Option<(Clock, Clock, string)>)
  {
    var i := IndexOf(s, '-', 0);
    var j := IndexOf(s, '(', i + 1);
    if i < 1 || j < i + 3 || |s| < j + 9 || s[|s| - 7..] != "mins ) " then None
    else if s[i - 1] != ' ' || s[i + 1] != ' ' || s[j - 1] != ' ' || s[j + 1] != ' ' then None
    else
      match (ParseAMPM(s[..i - 1]), ParseAMPM(s[i + 2..j - 1]))
      case (Some(dep), Some(arr)) => Some((dep, arr, s[j + 2..|s| - 7]))
      case _ => None
  }

  /** A formatted time is made of digits, `:`, a space and `am`/`pm`, so
      it holds neither separator the subtitle parser looks for. */
  lemma ClockTextHasNoSeparators(t: Clock)
    ensures forall k :: 0 <= k < |FormatAMPM(t)| ==> FormatAMPM(t)[k] != '-' && FormatAMPM(t)[k] != '('
  {
    var r := FormatAMPM(t);
    var hour := r[..|r| - 6];
    var mm := r[|r| - 5..|r| - 3];
    assert AllDigits(hour) && AllDigits(mm);
    forall k | 0 <= k < |r|
      ensures r[k] != '-' && r[k] != '('
    {
      if k < |r| - 6 {
        assert r[k] == hour[k];
      } else if |r| - 5 <= k < |r| - 3 {
        assert r[k] == mm[k - (|r| - 5)];
      } else if |r| - 2 <= k {
        assert r[k] == r[|r| - 2..][k - (|r| - 2)];
      }
    }
  }

  /** The subtitle layout over arbitrary field texts: where the parser's
      two searches land, and the slices it cuts. */
  lemma {:induction false} SubtitleLayout(dep: string, arr: string, duration: string)
    requires forall k :: 0 <= k < |dep| ==> dep[k] != '-'
    requires forall k :: 0 <= k < |arr| ==> arr[k] != '('
    ensures var s := dep + " - " + arr + " ( " + duration + "mins ) ";
      && IndexOf(s, '-', 0) == |dep| + 1
      && IndexOf(s, '(', |dep| + 2) == |dep| + |arr| + 4
      && s[..|dep|] == dep
      && s[|dep| + 3..|dep| + |arr| + 3] == arr
      && s[|dep| + |arr| + 6..|s| - 7] == duration
      && s[|s| - 7..] == "mins ) "
      && s[|dep|] == ' ' && s[|dep| + 2] == ' '
      && s[|dep| + |arr| + 3] == ' ' && s[|dep| + |arr| + 5] == ' '
  {
    var s := dep + " - " + arr + " ( " + duration + "mins ) ";
    var i := |dep| + 1;
    var j := |dep| + |arr| + 4;
    assert forall k :: 0 <= k < |dep| ==> s[k] == dep[k];
    assert s[|dep|] == ' ' && s[i] == '-';
    assert FirstFrom(s, '-', 0, i);
    IndexOfFinds(s, '-', 0, i);
    assert forall k :: i + 2 <= k < j - 1 ==> s[k] == arr[k - i - 2];
    assert s[i + 1] == ' ' && s[j - 1] == ' ' && s[j] == '(';
    assert FirstFrom(s, '(', i + 1, j);
    IndexOfFinds(s, '(', i + 1, j);
  }

  /** The parser's last step: separators found and fields read. */
  lemma ParseSubtitleFields(s: string, i: int, j: int, departure: Clock, arrival: Clock, duration: string)
    requires IndexOf(s, '-', 0) == i && IndexOf(s, '(', i + 1) == j
    requires 1 <= i && i + 3 <= j && j + 9 <= |s|
    requires s[|s| - 7..] == "mins ) "
    requires s[i - 1] == ' ' && s[i + 1] == ' ' && s[j - 1] == ' ' && s[j + 1] == ' '
    requires ParseAMPM(s[..i - 1]) == Some(departure)
    requires ParseAMPM(s[i + 2..j - 1]) == Some(arrival)
    requires s[j + 2..|s| - 7] == duration
    ensures ParseSubtitle(s) == Some((departure, arrival, duration))
  {
  }

  /** One card for one itinerary, enriched from the airline dataset. */
  function BuildCard(it: Itinerary, airlines: seq<AirlineRecord>): (c: Card)
    ensures c.buttons == [Button(BookFlightTitle, BookFlightKind, BookFlightUrl)]
    ensures c.subtitle == Subtitle(it.departure, it.arrival, it.durationMinutes)
  {
    var details := GetAirlineDetails(airlines, it.carrier);
    var name := if IsPresent(details) then NameProperty(details) else Some(it.carrier);
    var logoLink := if IsPresent(details) then LogoProperty(details) else Some("");
    Card(Title(Render(name), it.flightNumber),
         logoLink,
         Subtitle(it.departure, it.arrival, it.durationMinutes),
         [Button(BookFlightTitle, BookFlightKind, BookFlightUrl)])
  }

  /** A known carrier: the card shows the name and logo of the last
      dataset record with that code. */
  lemma KnownCarrierCard(it: Itinerary, airlines: seq<AirlineRecord>, i: int)
    requires 0 <= i < |airlines| && airlines[i].iata == it.carrier
    ensures var rec := airlines[LastMatchIndex(airlines, it.carrier)];
      && BuildCard(it, airlines).title == rec.name + "( Flight No: " + it.flightNumber + " )"
      && BuildCard(it, airlines).imageUrl == Some(rec.logoLink)
  {
  }

  /** An unknown carrier: the empty object passes the presence test, so
      the name renders as `undefined` and the image is left undefined;
      the raw carrier code is never shown. */
  lemma UnknownCarrierCard(it: Itinerary, airlines: seq<AirlineRecord>)
    requires forall i :: 0 <= i < |airlines| ==> airlines[i].iata != it.carrier
    ensures BuildCard(it, airlines).title == "undefined" + "( Flight No: " + it.flightNumber + " )"
    ensures BuildCard(it, airlines).imageUrl == None
  {
    var details := GetAirlineDetails(airlines, it.carrier);
    assert details == Empty;
  }

  /** The `for` loop over the kept itineraries: one card each, in order. */
  function BuildCards(flights: seq<Itinerary>, airlines: seq<AirlineRecord>): (cards: seq<Card>)
    ensures |cards| == |flights|
    ensures forall k :: 0 <= k < |flights| ==> cards[k] == BuildCard(flights[k], airlines)
    decreases |flights|
  {
    if |flights| == 0 then []
    else [BuildCard(flights[0], airlines)] + BuildCards(flights[1..], airlines)
  }

  /** The kept entries as complete itineraries, or `None` when one of
      them lacks one of the objects the card loop reads through. */
  function CompleteFlights(flights: seq<PricedItinerary>): (r: Option<seq<Itinerary>>)
    ensures r.Some? <==> forall k :: 0 <= k < |flights| ==> flights[k].Some?
    ensures r.Some? ==> |r.value| == |flights|
    ensures r.Some? ==> forall k :: 0 <= k < |flights| ==> r.value[k] == flights[k].value
    decreases |flights|
  {
    if |flights| == 0 then Some([])
    else match (flights[0], CompleteFlights(flights[1..]))
      case (Some(first), Some(rest)) => Some([first] + rest)
      case _ => None
  }

  /** The reply to a search that answered. An undefined error makes
      `error.length` throw, and so does an incomplete kept itinerary in the
      card loop: `None`. A non-empty error is relayed verbatim as text;
      otherwise the reply is the list of the flights' cards. */
  function Reply(result: SearchResult, airlines: seq<AirlineRecord>): (r: Option<Response>)
    ensures result.error.None? ==> r.None?
    ensures result.error.Some? && |result.error.value| > 0 ==> r == Some(Text(result.error.value))
    ensures result.error == Some("") ==>
      (r.Some? <==> forall k :: 0 <= k < |result.flights| ==> result.flights[k].Some?)
    ensures result.error == Some("") && r.Some? ==>
      && r.value.List? && |r.value.elements| == |result.flights|
      && forall k :: 0 <= k < |result.flights| ==>
           r.value.elements[k] == BuildCard(result.flights[k].value, airlines)
  {
    match result.error
    case None => None
    case Some(error) =>
      if |error| > 0 then Some(Text(error))
      else match CompleteFlights(result.flights)
        case None => None
        case Some(flights) => Some(List(BuildCards(flights, airlines)))
  }
}

=== FILE: time_format.dfy ===
/** The 12-hour clock rendering `formatAMPM` applies to itinerary
    departure and arrival times. */
module TimeFormat {

  import opened Optional
  import opened JsText

  /** `Date.prototype.getHours` and `getMinutes` ranges. */
  type Hour = h: int | 0 <= h < 24
  type Minute = m: int | 0 <= m < 60

  /** A local wall-clock time, as read off a parsed `Date`. */
  datatype Clock = Clock(hours: Hour, minutes: Minute)

  /** The suffix: afternoon from hour 12 on. */
  function Suffix(hours: Hour): (r: string)
    ensures r == "pm" <==> 12 <= hours
    ensures r == "am" <==> hours < 12
  {
    if hours >= 12 then "pm" else "am"
  }

  /** The hour shown on a 12-hour dial: reduced modulo 12, with a zero
      (falsy in JavaScript) shown as 12. */
  function DisplayHour(hours: Hour): (r: int)
    ensures 1 <= r <= 12
    ensures r % 12 == hours % 12
    ensures hours == 0 || hours == 12 ==> r == 12
    ensures r + (if 12 <= hours then 12 else 0) == (if hours == 0 || hours == 12 then hours + 12 else hours)
  {
    var h := hours % 12;
    if h != 0 then h else 12
  }

  /** The minute field: a `'0'` is prefixed below ten. */
  function MinuteField(minutes: Minute): (r: string)
    ensures |r| == 2
    ensures ParseNat(r) == Some(minutes)
  {
    NatToStringRoundTrip(minutes);
    if minutes < 10 then
      var r := "0" + NatToString(minutes);
      assert r[..1] == "0" && r[1..] == NatToString(minutes);
      assert DecimalValue(r) == DecimalValue(r[..1]) * 10 + DecimalValue(r[1..]) by {
        assert r[..|r| - 1] == r[..1];
        assert r[..0] == [];
      }
      r
    else NatToString(minutes)
  }

  /** The layout `hour + ':' + minutes + ' ' + suffix` over two-character
      minute and suffix fields: each field sits at a fixed distance from
      the end. */
  lemma TimeLayout(hour: string, minutes: string, suffix: string)
    requires |minutes| == 2 && |suffix| == 2
    ensures var r := hour + ":" + minutes + " " + suffix;
      && |r| == |hour| + 6
      && r[|r| - 6] == ':' && r[|r| - 3] == ' '
      && r[..|r| - 6] == hour
      && r[|r| - 5..|r| - 3] == minutes
      && r[|r| - 2..] == suffix
  {
  }

  /** `formatAMPM`: hour (never padded), colon, two-digit minutes, a
      space and the suffix. The fields sit at fixed distances from the end of the text
      and read back as the displayed hour and the minutes. */
  function FormatAMPM(t: Clock): (r: string)
    ensures 7 <= |r| <= 8
    ensures |r| == 7 <==> DisplayHour(t.hours) < 10
    ensures r[|r| - 6] == ':' && r[|r| - 3] == ' '
    ensures ParseNat(r[..|r| - 6]) == Some(DisplayHour(t.hours))
    ensures ParseNat(r[|r| - 5..|r| - 3]) == Some(t.minutes)
    ensures r[|r| - 2..] == "pm" <==> 12 <= t.hours
    ensures r[|r| - 2..] == "am" <==> t.hours < 12
  {
    var hour := NatToString(DisplayHour(t.hours));
    NatToStringRoundTrip(DisplayHour(t.hours));
    TimeLayout(hour, MinuteField(t.minutes), Suffix(t.hours));
    hour + ":" + MinuteField(t.minutes) + " " + Suffix(t.hours)
  }

  /** Reads a `formatAMPM` text back into a 24-hour clock; `None` for text
      of any other shape. */
  function ParseAMPM(s: string): (r: Option<Clock>)
  {
    if |s| < 7 || s[|s| - 6] != ':' || s[|s| - 3] != ' ' then None
    else
      var suffix := s[|s| - 2..];
      match (ParseNat(s[..|s| - 6]), ParseNat(s[|s| - 5..|s| - 3]))
      case (Some(h), Some(m)) =>
        if 1 <= h <= 12 && m < 60 && (suffix == "am" || suffix == "pm") then
          Some(Clock(h % 12 + (if suffix == "pm" then 12 else 0), m))
        else None
      case _ => None
  }

  /** `formatAMPM` gives the shortest text `ParseAMPM` reads as a given
      clock, and the only one of that length: any other reading of the
      same clock pads the hour. */
  lemma {:induction false} FormatAMPMShortest(x: string, t: Clock)
    requires ParseAMPM(x) == Some(t)
    ensures |FormatAMPM(t)| <= |x|
    ensures |FormatAMPM(t)| == |x| ==> x == FormatAMPM(t)
  {
    var hour := x[..|x| - 6];
    var mm := x[|x| - 5..|x| - 3];
    var suffix := x[|x| - 2..];
    var h := ParseNat(hour).value;
    var m := ParseNat(mm).value;
    assert h == DisplayHour(t.hours) by {
      assert h % 12 == t.hours % 12;
    }
    assert suffix == Suffix(t.hours);
    NatToStringShortest(hour, h);
    var y := hour + ":" + mm + " " + suffix;
    TimeLayout(hour, mm, suffix);
    assert |y| == |x|;
    forall k | 0 <= k < |x|
      ensures x[k] == y[k]
    {
      if k < |x| - 6 {
        assert x[k] == hour[k];
      } else if |x| - 5 <= k < |x| - 3 {
        assert x[k] == mm[k - (|x| - 5)];
      } else if |x| - 2 <= k {
        assert x[k] == suffix[k - (|x| - 2)];
      }
    }
    assert x == y;
    TimeLayout(NatToString(h), MinuteField(t.minutes), Suffix(t.hours));
    ShortDigitsUnique(mm, MinuteField(t.minutes));
  }

  /** Every clock time survives formatting and parsing. */
  lemma FormatAMPMRoundTrip(t: Clock)
    ensures ParseAMPM(FormatAMPM(t)) == Some(t)
  {
  }

  /** Distinct times never share a rendering, so in particular hour 0 and
      hour 12 are told apart by the suffix alone. */
  lemma FormatAMPMInjective(t: Clock, u: Clock)
    requires FormatAMPM(t) == FormatAMPM(u)
    ensures t == u
  {
    FormatAMPMRoundTrip(t);
    FormatAMPMRoundTrip(u);
  }

  /** Just after midnight shows as twelve in the morning. */
  lemma FormatAMPMAfterMidnight()
    ensures FormatAMPM(Clock(0, 5)) == "12:05 am"
  {
    assert NatToString(12) == NatToString(1) + [DigitChar(2)] == "12";
    assert MinuteField(5) == "05";
  }

  /** One in the afternoon drops to a single-digit hour. */
  lemma FormatAMPMAfternoon()
    ensures FormatAMPM(Clock(13, 0)) == "1:00 pm"
  {
    assert NatToString(1) == "1";
    assert MinuteField(0) == "00";
  }

  /** Noon keeps the dial hour 12 but takes the afternoon suffix. */
  lemma FormatAMPMNoon()
    ensures FormatAMPM(Clock(12, 30)) == "12:30 pm"
  {
    assert NatToString(12) == NatToString(1) + [DigitChar(2)] == "12";
    assert NatToString(30) == NatToString(3) + [DigitChar(0)] == "30";
    assert MinuteField(30) == "30";
  }
}
